=== FILE: README.md ===
# urldescribe in Dafny

A model of the core of `urldescribe`, a Go package that takes a URL and returns the title of the page it points to, cut to a length fit for a chat line. The pipeline runs in this order:

1. **Validate the URL.** The URL must have a host, and the host must not be `localhost` (case is ignored).
2. **Fetch the page.**
3. **Check the response envelope.** The status must be 200 OK. The Content-Type must start with `text/html`. The declared length must be within the configured maximum.
4. **Parse the page** into a markup tree.
5. **Extract the title.** This is the first non-empty text of a title-heading element (a `title` element whose first child is a text node) in document order. Elements inside another title-heading element do not count, because the crawler does not enter those.
6. **Format the title.** Trim it, collapse whitespace runs to single spaces, and cut it to `maxLength` code points. A title that is cut ends in `…` (U+2026).

Each step is a pure function over immutable datatypes. Three library calls become parameters of the model:

- `url.ParseRequestURI` becomes an `Option<Url>`.
- The HTTP round trip becomes an `Option<Response>`.
- `html.Parse` becomes an `Option<Node>`.

`DescribeURL` also returns a trace of its effects on the outside world: the request, the received body, the body read, and the body closed. This lets the model state which paths fetch the page, the order of the request, the receipt and the read, which paths read the body, and that the body is closed exactly once.

Files and modules:

- `wrappers.dfy`:
  - `Wrappers`: `Option` and `Result`.
  - `Errors`: the error kinds.
- `strings.dfy`:
  - `Strings`: Go's `unicode.IsSpace`, `strings.TrimSpace`, `strings.ReplaceAll` for one character, `strings.Fields` and `strings.Join`.
  - `FieldsJoin`: what `Fields` and `Join` promise about each other.
- `format_title.dfy`: `Formatter`, the title formatter.
- `extract_title.dfy`: `Extractor`, the markup tree, the title crawler and its reference definition.
- `parse_url.dfy`: `UrlPolicy`, the host policy.
- `envelope.dfy`: `Envelope`, the status, content-type and length checks.
- `config.dfy`: `Configuration`, the defaults and the functional options.
- `describe.dfy`: `Describe`, the composition.

Strings are sequences of Unicode code points (`char` with Dafny 4's default `--unicode-char`). That is what Go's `[]rune` conversion counts.

Points where the source's behaviour is easy to misread:

- **Error names.** The error kinds are named after the source's errors: `ErrInvalidHost` becomes `InvalidHost` and `ErrLocalhost` becomes `Localhost`.
- **Empty title text.** Because of the `title == ""` guard (urldescribe.go:148-151), a `title` element whose first child is an empty text node is skipped, and its insides are not searched. The search goes on with the rest of the tree.
- **The timeout option.** `WithTimeout` (urldescribe.go:33-38) stores its argument in `Config.timeout`, but nothing in the source reads that field. The client built by `DefaultConfig` (urldescribe.go:53) has no timeout, and `getPage` is bounded only by the caller's context. So a timeout option changes nothing about a description (`Describe.TimeoutIgnored`).
- **Parse errors.** A failure of `url.ParseRequestURI` is passed through unchanged. The model calls it `InvalidURL`.

## Model

| member | source | states |
|---|---|---|
| `FieldsJoin.FieldsOfJoin` | urldescribe.go:89 | Splitting into fields recovers the words that were joined with single spaces (`Fields` after `Join` is the identity on lists of non-empty, whitespace-free words) |
| `FieldsJoin.JoinOfFields` | urldescribe.go:89 | A single-spaced string equals the single-space join of its own fields (the other direction of the round trip) |
| `FieldsJoin.JoinSingleSpaced` | urldescribe.go:89 | Joining fields with `" "` gives a single-spaced string: no whitespace at the ends, and every whitespace character is a space between two non-whitespace characters |
| `FieldsJoin.FieldsTrimSpace` | urldescribe.go:87 | `TrimSpace` does not change the fields of a string |
| `FieldsJoin.FieldsSameShape` | urldescribe.go:88-89 | Two strings with whitespace at the same places and equal non-whitespace characters have the same fields, so it makes no difference which whitespace character separates two words |
| `FieldsJoin.JoinFieldsNotLonger` | urldescribe.go:89 | Rejoining the fields with single spaces never makes a string longer |
| `Formatter.Normalize` | urldescribe.go:86-89 | The normalised title is single-spaced, has exactly the fields of the raw title, and is no longer than it |
| `Formatter.NormalizeUnique` | urldescribe.go:86-89 | Normalisation is fully determined by its two promises: any single-spaced string with the title's fields is the normalised title |
| `Formatter.NormalizeFixesSingleSpaced` | urldescribe.go:86-89 | An already single-spaced string is returned unchanged: trimming, newline replacement and rejoining change nothing |
| `Formatter.NormalizeIdempotent` | urldescribe.go:86-89 | Normalising twice is the same as normalising once |
| `Formatter.NormalizeEmpty` | urldescribe.go:87-89 | The normalised title is empty exactly when the raw title is all whitespace (has no fields) |
| `Formatter.TruncatedSingleSpaced` | urldescribe.go:93-94 | Cutting a single-spaced title at any point and appending the ellipsis keeps it single-spaced, because the ellipsis is not whitespace |
| `Formatter.FormatTitle` | urldescribe.go:85-98 | It is defined exactly when the slice `runes[:maxLength-1]` cannot panic. The output is single-spaced and at most `maxLength` long. A normalised title that fits is returned unchanged. A longer one becomes exactly `maxLength` code points: its first `maxLength-1` code points, then U+2026 |
| `Formatter.FormatTitleShape` | urldescribe.go:86-95 | The formatted title has no leading or trailing whitespace (as `unicode.IsSpace` defines it), no newline, and no two adjacent whitespace characters |
| `Formatter.FormatTitleKeepsFields` | urldescribe.go:89-97 | A title that fits keeps exactly its words; formatting changes only whitespace |
| `Formatter.FormatTitleIdempotent` | urldescribe.go:85-97 | For `maxLength >= 1`, formatting an already formatted title changes nothing |
| `Formatter.BlankTitleFormatsEmpty` | urldescribe.go:86-97 | An all-whitespace title formats to the empty string for any `maxLength >= 0` |
| `Formatter.TwoWordFields` | urldescribe.go:87-89 | Two words with spaces around them and a newline between them have the same fields as the two words joined by one space |
| `Formatter.TwoWordTitle` | urldescribe.go:86-97 | A title of the shape `"  Example\nSite "` formats as the two words separated by one space, whenever that fits |
| `Extractor.ExtractTitle` | urldescribe.go:135-161 | The crawler, with its captured `title` variable threaded through, returns the first non-empty text of a title-heading element in document order, not counting elements inside another title-heading element (the crawler does not enter those), or `""` if there is none |
| `Extractor.FirstNonEmpty` | urldescribe.go:148 | The reference selection: the result is empty exactly when every candidate is empty; otherwise it is a candidate preceded only by empty ones |
| `Extractor.CrawlKeepsTitle` | urldescribe.go:148-156 | Once `title` is non-empty, crawling any subtree leaves it unchanged, so later `title` elements never overwrite it |
| `Extractor.CrawlAllKeepsTitle` | urldescribe.go:154-156 | The same for the loop over a list of siblings |
| `Extractor.CrawlFindsFirst` | urldescribe.go:147-157 | Crawling a node from an empty title yields the first non-empty text of a title-heading element in pre-order. The search does not enter such elements |
| `Extractor.CrawlAllFindsFirst` | urldescribe.go:154-156 | The same for a list of siblings crawled first to last |
| `Extractor.ExtractTitleConcat` | urldescribe.go:154-156 | Siblings are searched in order: the title of `a + b` is the title of `a` if `a` has one, and otherwise the title of `b` |
| `Extractor.UnheadedTitleSearchesOn` | urldescribe.go:148-156 | A `title` element without a text first child does not stop the search. The crawler looks through its children and then goes on through the rest of the tree |
| `Extractor.EmptyTitleSearchesOn` | urldescribe.go:148-151 | A `title` element whose first text child is empty does not end the search either. Its other children are skipped |
| `UrlPolicy.ParseURL` | urldescribe.go:165-180 | A failed parse gives `InvalidURL`. An empty host gives `InvalidHost`, exactly when the host is empty. A host that lowercases to `localhost` gives `Localhost`, exactly then. Otherwise the parsed URL is returned unchanged |
| `UrlPolicy.IsLocalhostIgnoresCase` | urldescribe.go:175 | The localhost test is a case-insensitive match: each of the host's nine characters is the matching letter of `localhost` in either case |
| `UrlPolicy.LocalhostWithPortAccepted` | urldescribe.go:171-179 | `localhost:8080` is accepted, because Go's `Host` includes the port |
| `Envelope.CheckResponse` | urldescribe.go:115-130 | The status is checked first: any status but 200 is `UnexpectedStatus`. Then the content type: a Content-Type not starting with `text/html` is `NotHTML`. Then the length: a declared length above `maxBodySize` is `ResponseTooLarge`. The check succeeds, returning the response, exactly when all three pass |
| `Envelope.UnknownLengthAccepted` | urldescribe.go:125 | An unknown declared length (-1) never fails the size check |
| `Configuration.DefaultConfig` | urldescribe.go:48-55 | The defaults are a timeout of 10 s, a `maxLength` of 140 and a `maxBodySize` of 2 MiB |
| `Configuration.ApplyAllAppend` | urldescribe.go:61-63 | Applying the options `a + b` is applying `a`, then `b` |
| `Configuration.ApplyAllLastWins` | urldescribe.go:34-63 | For options built by `WithTimeout` and `WithMaxLength`, the last `WithMaxLength` and the last `WithTimeout` win, the starting value is kept when there is none, and the body size limit never changes |
| `Describe.DescribeURL` | urldescribe.go:58-83 | See the note below the table |
| `Describe.DescribeURLErrors` | urldescribe.go:65-79 | Failures propagate unchanged: a failed round trip gives `Transport`; a failed response check gives that check's error; a failed parse gives `ParseFailed` |
| `Describe.TimeoutIgnored` | urldescribe.go:33-38 | Adding a `WithTimeout` option to any option list leaves the description, its result and its trace, unchanged, because the stored timeout is never read |
| `Describe.UntitledPageDescribesEmpty` | urldescribe.go:76-82 | A page with no title-heading element describes as `""`. A missing title is not an error |

`Describe.DescribeURL` promises:

- **Result.** It succeeds exactly when every stage passes, and then returns the formatted extracted title.
- **No fetch for a rejected URL.** A URL that validation rejects yields that error and an empty trace: nothing is fetched.
- **Right URL, first.** When the URL is accepted, the first event is the request for the validated URL, and no other URL is requested.
- **Order of the fetch.** When a response arrives, its receipt is the second event. When the response passes the checks, the body is read right after that.
- **Body closed once.** A received body is closed exactly once, as the last event.
- **Body read only after the checks.** The body is read only after the status, type and length checks have all passed.

## Left out

- The HTTP round trip in `getPage` (urldescribe.go:103-113) is not modelled. That covers building the request, the `Accept` and `User-Agent` headers, `httpClient.Do` and the context. It is network I/O through a library. Its outcome is the `fetched` parameter, and `None` stands for every transport failure (`Transport`).
- `url.ParseRequestURI` and `html.Parse` are library calls. Their outcomes are the `parsed` and `doc` parameters. `Url` keeps only the `Host` field and the `String()` form. `Node` keeps only the node type, the tag, the text and the ordered children. Text nodes have no children, as `html.Parse` builds them.
- The text of error messages is not modelled. The `fmt.Errorf` wrapping with `%w` and the status text (`resp.Status`) are dropped; the status code and the header value become the payload of an `Error` constructor.
- `Configuration.ApplyAllLastWins`: options are modelled as the package's two constructors, `WithTimeout` and `WithMaxLength`, only. Go's `Option` is an open `func(*Config)` type (urldescribe.go:31). A nil option, which panics at `opt(cfg)` (urldescribe.go:62), is not modelled. Neither is an option written by the caller, which may change any field, `maxBodySize` included, or replace the whole `Config`.
- The `httpClient` field of `Config` is not modelled, because only the network round trip uses it. The timeout is an integer count of nanoseconds (a `time.Duration`). The source stores it but never reads it, so it affects nothing.
- Invalid UTF-8 is not modelled. Go strings are bytes, and `[]rune` turns each invalid byte into U+FFFD. The model's strings are sequences of code points, so every input is valid.
- `UrlPolicy.IsLocalhostIgnoresCase`: `strings.ToLower` is modelled on ASCII letters only. The comparison is still exact. The only non-ASCII code points whose simple lowercase form is ASCII are U+0130 (to `i`) and U+212A (to `k`). Neither letter occurs in `localhost`.
- `Formatter.FormatTitle`: with `maxLength < 1` and a normalised title longer than `maxLength`, the source panics on `runes[:maxLength-1]`. The model does not describe that panic. Instead the precondition `Formattable` excludes exactly those inputs. `Describe.DescribeURL` requires it only on the path that reaches the formatter.
- `Describe.DescribeURL`: closing the body is an event in the returned trace, not a real resource. The trace does not separate the deferred close on the success path from the close on error paths in `getPage`. Both appear as the last event.
- The command-line entry point (`cmd/title.go`) only parses arguments and prints, so it is not modelled. That includes its mapping of every error to an empty string.
- The package's test file calls an older one-argument `DescribeURL`, so it is not modelled. Its cases are empty, localhost, relative and scheme-less URLs, and all of them are covered by `UrlPolicy.ParseURL`.

=== FILE: config.dfy ===
/** The configuration of a description and the options that override it. */
module Configuration {

  /** One second as a `time.Duration`, which counts nanoseconds. */
  const Second: int := 1_000_000_000

  /** The default configuration's limits. */
  const DefaultTimeout: int := 10 * Second
  const DefaultMaxLength: int := 140
  const DefaultMaxBodySize: int := 2 * 1024 * 1024

  /**
   * `Config` without its HTTP client: the request timeout, the maximum
   * number of code points of a formatted title and the maximum declared
   * body size in bytes.
   */
  datatype Config = Config(timeout: int, maxLength: int, maxBodySize: int)

  /** The functional options `WithTimeout` and `WithMaxLength`. */
  datatype Setting = WithTimeout(d: int) | WithMaxLength(n: int)

  /** `DefaultConfig`. */
  function DefaultConfig(): (c: Config)
    ensures c.timeout == 10 * Second
    ensures c.maxLength == 140
    ensures c.maxBodySize == 2_097_152
  {
    Config(DefaultTimeout, DefaultMaxLength, DefaultMaxBodySize)
  }

  /** Running one option against a configuration. */
  function Apply(c: Config, o: Setting): Config
  {
    match o
    case WithTimeout(d) => c.(timeout := d)
    case WithMaxLength(n) => c.(maxLength := n)
  }

  /** The loop of `DescribeURL` over its options, first to last. */
  function ApplyAll(c: Config, opts: seq<Setting>): Config
    decreases |opts|
  {
    if opts == [] then c else ApplyAll(Apply(c, opts[0]), opts[1..])
  }

  /** The configuration `DescribeURL` runs with. */
  function Configure(opts: seq<Setting>): Config
  {
    ApplyAll(DefaultConfig(), opts)
  }

  /** The argument of the last `WithMaxLength` in `opts`, or `dflt` when there is none. */
  function LastMaxLength(opts: seq<Setting>, dflt: int): int
    decreases |opts|
  {
    if opts == [] then dflt
    else if opts[|opts| - 1].WithMaxLength? then opts[|opts| - 1].n
    else LastMaxLength(opts[..|opts| - 1], dflt)
  }

  /** The argument of the last `WithTimeout` in `opts`, or `dflt` when there is none. */
  function LastTimeout(opts: seq<Setting>, dflt: int): int
    decreases |opts|
  {
    if opts == [] then dflt
    else if opts[|opts| - 1].WithTimeout? then opts[|opts| - 1].d
    else LastTimeout(opts[..|opts| - 1], dflt)
  }

  /** Applying `a + b` is applying `a`, then `b`. */
  lemma {:induction false} ApplyAllAppend(c: Config, a: seq<Setting>, b: seq<Setting>)
    ensures ApplyAll(c, a + b) == ApplyAll(ApplyAll(c, a), b)
    decreases |a|
  {
    if a != [] {
      assert (a + b)[0] == a[0];
      assert (a + b)[1..] == a[1..] + b;
      ApplyAllAppend(Apply(c, a[0]), a[1..], b);
    } else {
      assert a + b == b;
    }
  }

  /**
   * Options are applied left to right: the last `WithMaxLength` and the
   * last `WithTimeout` win, and the body size limit never changes.
   */
  lemma {:induction false} ApplyAllLastWins(c: Config, opts: seq<Setting>)
    ensures ApplyAll(c, opts).maxLength == LastMaxLength(opts, c.maxLength)
    ensures ApplyAll(c, opts).timeout == LastTimeout(opts, c.timeout)
    ensures ApplyAll(c, opts).maxBodySize == c.maxBodySize
    decreases |opts|
  {
    if opts != [] {
      var init, last := opts[..|opts| - 1], opts[|opts| - 1];
      assert opts == init + [last];
      ApplyAllAppend(c, init, [last]);
      ApplyAllLastWins(c, init);
    }
  }
}

=== FILE: describe.dfy ===
/**
 * `DescribeURL`: configure, validate the URL, fetch, check the response,
 * parse, extract and format. The URL parser, the HTTP round trip and the
 * markup parser are outside the model; their outcomes are parameters.
 */
module Describe {
  import opened Wrappers
  import opened Errors
  import opened Configuration
  import opened UrlPolicy
  import opened Envelope
  import opened Extractor
  import opened Formatter

  /** What happens to the outside world during a description. */
  datatype Event =
    /** A GET request for the URL is attempted (it may fail before anything is sent). */
    | Requested(url: string)
    /** A response arrives; its body is open. */
    | Received
    /** The markup parser reads the body. */
    | BodyRead
    /** The body is closed. */
    | BodyClosed

  /** The outcome of a description and the events it caused, in order. */
  datatype Run = Run(result: Result<string, Error>, trace: seq<Event>)

  /**
   * Every stage before the formatter succeeds, given `parsed` (the outcome
   * of `url.ParseRequestURI`), `fetched` (the response, or None when the
   * round trip failed) and `doc` (the tree, or None when parsing failed).
   */
  predicate ReachesFormatter(opts: seq<Setting>, parsed: Option<Url>, fetched: Option<Response>, doc: Option<Node>)
  {
    && ParseURL(parsed).Success?
    && fetched.Some?
    && CheckResponse(fetched.value, Configure(opts).maxBodySize).Success?
    && doc.Some?
  }

  /**
   * `DescribeURL`. The requirement is the formatter's: with a maximum length
   * below 1, the source panics on any title that is too long.
   */
  function DescribeURL(opts: seq<Setting>, parsed: Option<Url>, fetched: Option<Response>, doc: Option<Node>): (run: Run)
    requires ReachesFormatter(opts, parsed, fetched, doc) ==>
      Formattable(ExtractTitle(doc.value), Configure(opts).maxLength)
    // The result: the formatted title exactly when every stage succeeds.
    ensures run.result.Success? <==> ReachesFormatter(opts, parsed, fetched, doc)
    ensures run.result.Success? ==>
      run.result.value == FormatTitle(ExtractTitle(doc.value), Configure(opts).maxLength)
    // A URL the policy rejects is never fetched.
    ensures ParseURL(parsed).Failure? ==> run == Run(Failure(ParseURL(parsed).error), [])
    ensures forall u :: Requested(u) in run.trace ==> ParseURL(parsed) == Success(Url(ParseURL(parsed).value.host, u))
    // An accepted URL is requested first; a response is received next, and
    // when it passes the checks its body is read before it is closed.
    ensures ParseURL(parsed).Success? ==> |run.trace| > 0 && run.trace[0] == Requested(ParseURL(parsed).value.text)
    ensures ParseURL(parsed).Success? && fetched.Some? ==> |run.trace| > 1 && run.trace[1] == Received
    ensures ParseURL(parsed).Success? && fetched.Some? && CheckResponse(fetched.value, Configure(opts).maxBodySize).Success? ==>
      |run.trace| > 3 && run.trace[1..3] == [Received, BodyRead]
    // A received body is closed exactly once, as the last event.
    ensures Received in run.trace <==> ParseURL(parsed).Success? && fetched.Some?
    ensures Received in run.trace <==> BodyClosed in run.trace
    ensures BodyClosed in run.trace ==>
      && run.trace[|run.trace| - 1] == BodyClosed
      && forall i :: 0 <= i < |run.trace| - 1 ==> run.trace[i] != BodyClosed
    // The body is read only after all three response checks passed.
    ensures BodyRead in run.trace ==> fetched.Some? && Acceptable(fetched.value, Configure(opts).maxBodySize)
  {
    var cfg := Configure(opts);
    match ParseURL(parsed)
    case Failure(e) => Run(Failure(e), [])
    case Success(u) =>
      match fetched
      case None => Run(Failure(Transport), [Requested(u.text)])
      case Some(resp) =>
        match CheckResponse(resp, cfg.maxBodySize)
        case Failure(e) => Run(Failure(e), [Requested(u.text), Received, BodyClosed])
        case Success(_) =>
          var trace := [Requested(u.text), Received, BodyRead, BodyClosed];
          match doc
          case None => Run(Failure(ParseFailed), trace)
          case Some(tree) => Run(Success(FormatTitle(ExtractTitle(tree), cfg.maxLength)), trace)
  }

  /**
   * Failures propagate unchanged and without a partial result: the error is
   * that of the first stage that failed.
   */
  lemma DescribeURLErrors(opts: seq<Setting>, parsed: Option<Url>, fetched: Option<Response>, doc: Option<Node>)
    requires ReachesFormatter(opts, parsed, fetched, doc) ==>
      Formattable(ExtractTitle(doc.value), Configure(opts).maxLength)
    ensures var r := DescribeURL(opts, parsed, fetched, doc).result;
      && (ParseURL(parsed).Success? && fetched.None? ==> r == Failure(Transport))
      && (ParseURL(parsed).Success? && fetched.Some? && CheckResponse(fetched.value, Configure(opts).maxBodySize).Failure? ==>
            r == Failure(CheckResponse(fetched.value, Configure(opts).maxBodySize).error))
      && (ParseURL(parsed).Success? && fetched.Some? && CheckResponse(fetched.value, Configure(opts).maxBodySize).Success? && doc.None? ==>
            r == Failure(ParseFailed))
  {
  }

  /**
   * The timeout option changes nothing about a description: the source
   * stores the timeout in the configuration but never reads it.
   */
  lemma TimeoutIgnored(opts: seq<Setting>, d: int, parsed: Option<Url>, fetched: Option<Response>, doc: Option<Node>)
    requires ReachesFormatter(opts, parsed, fetched, doc) ==>
      Formattable(ExtractTitle(doc.value), Configure(opts).maxLength)
    ensures ReachesFormatter(opts + [WithTimeout(d)], parsed, fetched, doc) ==>
      Formattable(ExtractTitle(doc.value), Configure(opts + [WithTimeout(d)]).maxLength)
    ensures DescribeURL(opts + [WithTimeout(d)], parsed, fetched, doc) == DescribeURL(opts, parsed, fetched, doc)
  {
    ApplyAllAppend(DefaultConfig(), opts, [WithTimeout(d)]);
  }

  /** A page without any title describes as the empty string, not as an error. */
  lemma UntitledPageDescribesEmpty(opts: seq<Setting>, parsed: Option<Url>, fetched: Option<Response>, tree: Node)
    requires ReachesFormatter(opts, parsed, fetched, Some(tree))
    requires TitleTexts(tree) == [] && Configure(opts).maxLength >= 0
    ensures DescribeURL(opts, parsed, fetched, Some(tree)).result == Success("")
  {
  }
}

=== FILE: envelope.dfy ===
/**
 * The decision part of `getPage`: whether a response may be handed on for
 * parsing, judged from its status line and headers alone.
 */
module Envelope {
  import opened Wrappers
  import opened Errors

  /** `http.StatusOK`. */
  const StatusOK: int := 200

  /**
   * What `getPage` inspects of an `*http.Response`: the status code, the
   * first Content-Type header value (empty when absent) and the declared
   * content length (-1 when unknown).
   */
  datatype Response = Response(status: int, contentType: string, contentLength: int)

  /** The three conditions a response must meet before its body is read. */
  predicate Acceptable(resp: Response, maxBodySize: int)
  {
    && resp.status == StatusOK
    && "text/html" <= resp.contentType
    && resp.contentLength <= maxBodySize
  }

  /**
   * The checks of `getPage`, in their order: status first, then content
   * type, then declared length. The first failing check decides the error.
   */
  function CheckResponse(resp: Response, maxBodySize: int): (r: Result<Response, Error>)
    ensures r.Success? <==> Acceptable(resp, maxBodySize)
    ensures r.Success? ==> r.value == resp
    ensures resp.status != StatusOK <==> r == Failure(UnexpectedStatus(resp.status))
    ensures r == Failure(NotHTML(resp.contentType)) <==>
      resp.status == StatusOK && !("text/html" <= resp.contentType)
    ensures r == Failure(ResponseTooLarge(resp.contentLength)) <==>
      resp.status == StatusOK && "text/html" <= resp.contentType && resp.contentLength > maxBodySize
  {
    if resp.status != StatusOK then Failure(UnexpectedStatus(resp.status))
    else if !("text/html" <= resp.contentType) then Failure(NotHTML(resp.contentType))
    else if resp.contentLength > maxBodySize then Failure(ResponseTooLarge(resp.contentLength))
    else Success(resp)
  }

  /** An unknown length (-1) never fails the size check. */
  lemma UnknownLengthAccepted(contentType: string, maxBodySize: int)
    requires "text/html" <= contentType && maxBodySize >= 0
    ensures CheckResponse(Response(StatusOK, contentType, -1), maxBodySize).Success?
  {
  }
}

=== FILE: extract_title.dfy ===
/**
 * The title extractor: a pre-order search of the markup tree for the first
 * non-empty text of a `title` element whose first child is a text node. The
 * search does not enter such an element, so one nested inside another is
 * never considered.
 */
module Extractor {

  /** A node of the parsed markup tree, as `html.Parse` builds it. */
  datatype Node =
    | Element(tag: string, children: seq<Node>)
    | Text(data: string)
    /** Document, comment, doctype and every other kind of node. */
    | Other(children: seq<Node>)

  /** A `title` element whose first child is a text node. */
  predicate HeadsTitle(n: Node)
  {
    n.Element? && n.tag == "title" && |n.children| > 0 && n.children[0].Text?
  }

  /**
   * The crawler closure of `extractTitle`, with the captured variable
   * `title` threaded through: the value of `title` after crawling `n`.
   * While `title` is empty, a `title` element headed by a text node sets it
   * and ends the visit of that element; everything else is crawled child by
   * child.
   */
  function Crawl(n: Node, title: string): string
    decreases n
  {
    if title == "" && HeadsTitle(n) then n.children[0].data
    else match n
      case Text(_) => title
      case Element(_, cs) => CrawlAll(cs, title)
      case Other(cs) => CrawlAll(cs, title)
  }

  /** The loop over the siblings `cs`, first to last. */
  function CrawlAll(cs: seq<Node>, title: string): string
    decreases cs
  {
    if cs == [] then title else CrawlAll(cs[1..], Crawl(cs[0], title))
  }

  /**
   * `extractTitle`: crawl the whole tree starting from an empty title. The
   * result is the first non-empty text of a title-heading element in
   * document order, not counting elements inside another title-heading
   * element (the crawler does not enter those), and the empty string when
   * there is none.
   */
  function ExtractTitle(tree: Node): (r: string)
    ensures r == FirstNonEmpty(TitleTexts(tree))
  {
    CrawlFindsFirst(tree);
    Crawl(tree, "")
  }

  /*
   * The reference definition: the text of every title-heading element, in
   * document order, skipping the insides of those elements (the crawler
   * never enters them while it is still searching).
   */

  function TitleTexts(n: Node): seq<string>
    decreases n
  {
    if HeadsTitle(n) then [n.children[0].data]
    else match n
      case Text(_) => []
      case Element(_, cs) => TitleTextsAll(cs)
      case Other(cs) => TitleTextsAll(cs)
  }

  function TitleTextsAll(cs: seq<Node>): seq<string>
    decreases cs
  {
    if cs == [] then [] else TitleTexts(cs[0]) + TitleTextsAll(cs[1..])
  }

  /** The first non-empty string of `ss`, or the empty string if there is none. */
  function FirstNonEmpty(ss: seq<string>): (r: string)
    ensures r == "" <==> forall i :: 0 <= i < |ss| ==> ss[i] == ""
    ensures r != "" ==> exists i :: 0 <= i < |ss| && ss[i] == r && forall j :: 0 <= j < i ==> ss[j] == ""
  {
    if ss == [] then ""
    else if ss[0] != "" then ss[0]
    else
      var r := FirstNonEmpty(ss[1..]);
      assert r != "" ==> exists i :: 0 <= i < |ss| && ss[i] == r && forall j :: 0 <= j < i ==> ss[j] == "" by {
        if r != "" {
          var i :| 0 <= i < |ss[1..]| && ss[1..][i] == r && forall j :: 0 <= j < i ==> ss[1..][j] == "";
          assert ss[i + 1] == r;
          forall j | 0 <= j < i + 1 ensures ss[j] == "" {
            if j > 0 { assert ss[j] == ss[1..][j - 1]; }
          }
        }
      }
      r
  }

  lemma {:induction false} FirstNonEmptyAppend(a: seq<string>, b: seq<string>)
    ensures FirstNonEmpty(a + b) == if FirstNonEmpty(a) != "" then FirstNonEmpty(a) else FirstNonEmpty(b)
    decreases |a|
  {
    if a != [] {
      assert (a + b)[1..] == a[1..] + b;
      FirstNonEmptyAppend(a[1..], b);
    } else {
      assert a + b == b;
    }
  }

  /** Once a title is found, crawling changes nothing: later titles never overwrite it. */
  lemma {:induction false} CrawlKeepsTitle(n: Node, title: string)
    requires title != ""
    ensures Crawl(n, title) == title
    decreases n
  {
    match n
    case Text(_) =>
    case Element(_, cs) => CrawlAllKeepsTitle(cs, title);
    case Other(cs) => CrawlAllKeepsTitle(cs, title);
  }

  lemma {:induction false} CrawlAllKeepsTitle(cs: seq<Node>, title: string)
    requires title != ""
    ensures CrawlAll(cs, title) == title
    decreases cs
  {
    if cs != [] {
      CrawlKeepsTitle(cs[0], title);
      CrawlAllKeepsTitle(cs[1..], title);
    }
  }

  /** The crawler, started with an empty title, finds the first non-empty title text in document order. */
  lemma {:induction false} CrawlFindsFirst(n: Node)
    ensures Crawl(n, "") == FirstNonEmpty(TitleTexts(n))
    decreases n
  {
    if !HeadsTitle(n) {
      match n
      case Text(_) =>
      case Element(_, cs) => CrawlAllFindsFirst(cs);
      case Other(cs) => CrawlAllFindsFirst(cs);
    }
  }

  lemma {:induction false} CrawlAllFindsFirst(cs: seq<Node>)
    ensures CrawlAll(cs, "") == FirstNonEmpty(TitleTextsAll(cs))
    decreases cs
  {
    if cs != [] {
      var t := Crawl(cs[0], "");
      CrawlFindsFirst(cs[0]);
      FirstNonEmptyAppend(TitleTexts(cs[0]), TitleTextsAll(cs[1..]));
      if t != "" {
        CrawlAllKeepsTitle(cs[1..], t);
      } else {
        CrawlAllFindsFirst(cs[1..]);
      }
    }
  }

  /**
   * Siblings are searched in order: the title of `a + b` is the title of
   * `a` if it has one, and otherwise the search goes on through `b`.
   */
  lemma ExtractTitleConcat(a: seq<Node>, b: seq<Node>)
    ensures ExtractTitle(Other(a + b)) ==
      if ExtractTitle(Other(a)) != "" then ExtractTitle(Other(a)) else ExtractTitle(Other(b))
  {
    TitleTextsAllAppend(a, b);
    CrawlFindsFirst(Other(a + b));
    CrawlFindsFirst(Other(a));
    CrawlFindsFirst(Other(b));
    FirstNonEmptyAppend(TitleTextsAll(a), TitleTextsAll(b));
  }

  lemma {:induction false} TitleTextsAllAppend(a: seq<Node>, b: seq<Node>)
    ensures TitleTextsAll(a + b) == TitleTextsAll(a) + TitleTextsAll(b)
    decreases |a|
  {
    if a != [] {
      assert (a + b)[1..] == a[1..] + b;
      assert (a + b)[0] == a[0];
      TitleTextsAllAppend(a[1..], b);
    } else {
      assert a + b == b;
    }
  }

  /**
   * A `title` element without a text first child does not stop the search:
   * the crawler goes through its children and then on through the rest of
   * the tree.
   */
  lemma UnheadedTitleSearchesOn(cs: seq<Node>, rest: seq<Node>)
    requires cs == [] || !cs[0].Text?
    ensures var t := ExtractTitle(Other([Element("title", cs)] + rest));
      t == if ExtractTitle(Other(cs)) != "" then ExtractTitle(Other(cs)) else ExtractTitle(Other(rest))
  {
    ExtractTitleConcat([Element("title", cs)], rest);
    assert CrawlAll([Element("title", cs)], "") == Crawl(Element("title", cs), "");
  }

  /**
   * A `title` element whose first text child is empty does not end the
   * search either, but the crawler does not look inside it.
   */
  lemma EmptyTitleSearchesOn(inner: seq<Node>, rest: seq<Node>)
    ensures ExtractTitle(Other([Element("title", [Text("")] + inner)] + rest)) == ExtractTitle(Other(rest))
  {
    var e := Element("title", [Text("")] + inner);
    ExtractTitleConcat([e], rest);
    assert CrawlAll([e], "") == Crawl(e, "");
  }
}

=== FILE: format_title.dfy ===
/**
 * The title formatter: whitespace normalisation followed by truncation to
 * a maximum number of code points, marked with an ellipsis.
 */
module Formatter {
  import opened Strings
  import opened FieldsJoin

  /** U+2026 HORIZONTAL ELLIPSIS, appended to a truncated title. */
  const Ellipsis: char := '\U{2026}'

  /**
   * Trim the title, turn newlines into spaces and rejoin its fields with
   * single spaces. The result is the single-spaced string with the same
   * fields as the title.
   */
  function Normalize(title: string): (r: string)
    ensures SingleSpaced(r)
    ensures Fields(r) == Fields(title)
    ensures |r| <= |title|
  {
    var t := ReplaceChar(TrimSpace(title), '\n', ' ');
    NormalizeFields(title, t);
    JoinSingleSpaced(Fields(t));
    FieldsOfJoin(Fields(t));
    JoinFieldsNotLonger(t);
    Join(Fields(t), " ")
  }

  lemma NormalizeFields(title: string, t: string)
    requires t == ReplaceChar(TrimSpace(title), '\n', ' ')
    ensures Fields(t) == Fields(title) && |t| <= |title|
  {
    FieldsTrimSpace(title);
    FieldsReplaceNewline(TrimSpace(title), t);
  }

  lemma FieldsReplaceNewline(u: string, t: string)
    requires t == ReplaceChar(u, '\n', ' ')
    ensures Fields(t) == Fields(u)
  {
    ReplaceNewlineSameShape(u);
    FieldsSameShape(u, t);
  }

  /** A single-spaced string is left alone by normalisation. */
  lemma NormalizeFixesSingleSpaced(s: string)
    requires SingleSpaced(s)
    ensures Normalize(s) == s
  {
    if s != [] {
      assert SpacedAt(s, 0);
      assert SpacedAt(s, |s| - 1);
      assert TrimLeftSpace(s) == s;
      assert TrimRightSpace(s) == s;
    }
    assert ReplaceChar(s, '\n', ' ') == s by {
      forall i | 0 <= i < |s|
        ensures s[i] != '\n'
      {
        assert SpacedAt(s, i);
      }
    }
    JoinOfFields(s);
  }

  /**
   * Normalisation is characterised by its two promises: any single-spaced
   * string with the same fields as `s` is `Normalize(s)`.
   */
  lemma NormalizeUnique(s: string, t: string)
    requires SingleSpaced(t) && Fields(t) == Fields(s)
    ensures t == Normalize(s)
  {
    JoinOfFields(t);
    JoinOfFields(Normalize(s));
  }

  lemma NormalizeIdempotent(s: string)
    ensures Normalize(Normalize(s)) == Normalize(s)
  {
    NormalizeFixesSingleSpaced(Normalize(s));
  }

  /** A title normalises to the empty string exactly when it has no fields, that is, is all whitespace. */
  lemma NormalizeEmpty(s: string)
    ensures Normalize(s) == "" <==> Fields(s) == []
  {
  }

  /** Formatting does not panic: the slice `runes[:maxLength-1]` is taken only when in bounds. */
  predicate Formattable(title: string, maxLength: int)
  {
    1 <= maxLength || |Normalize(title)| <= maxLength
  }

  /** A prefix of a single-spaced string followed by the ellipsis is single-spaced. */
  lemma TruncatedSingleSpaced(n: string, k: nat)
    requires SingleSpaced(n) && k < |n|
    ensures SingleSpaced(n[..k] + [Ellipsis])
  {
    var r := n[..k] + [Ellipsis];
    forall i | 0 <= i < |r|
      ensures SpacedAt(r, i)
    {
      if i < k {
        assert SpacedAt(n, i);
        assert r[i] == n[i];
        if IsSpace(r[i]) {
          assert r[i - 1] == n[i - 1];
          if i + 1 < k {
            assert r[i + 1] == n[i + 1];
          }
        }
      }
    }
  }

  /**
   * `formatTitle`: the normalised title if it has at most `maxLength` code
   * points; otherwise its first `maxLength - 1` code points and an ellipsis.
   */
  function FormatTitle(title: string, maxLength: int): (r: string)
    requires Formattable(title, maxLength)
    ensures SingleSpaced(r) && |r| <= maxLength
    ensures |Normalize(title)| <= maxLength ==> r == Normalize(title)
    ensures |Normalize(title)| > maxLength ==>
      && |r| == maxLength
      && r[maxLength - 1] == Ellipsis
      && r[..maxLength - 1] == Normalize(title)[..maxLength - 1]
  {
    var n := Normalize(title);
    if |n| > maxLength then
      TruncatedSingleSpaced(n, maxLength - 1);
      n[..maxLength - 1] + [Ellipsis]
    else
      n
  }

  /**
   * The formatted title has no whitespace at either end, no newline, and no
   * two whitespace characters next to each other.
   */
  lemma FormatTitleShape(title: string, maxLength: int)
    requires Formattable(title, maxLength)
    ensures var r := FormatTitle(title, maxLength);
      && (r == [] || (!IsSpace(r[0]) && !IsSpace(r[|r| - 1])))
      && (forall i :: 0 <= i < |r| ==> r[i] != '\n')
      && (forall i :: 0 <= i < |r| - 1 ==> !(IsSpace(r[i]) && IsSpace(r[i + 1])))
  {
    var r := FormatTitle(title, maxLength);
    forall i | 0 <= i < |r|
      ensures r[i] != '\n' && (i == 0 || i == |r| - 1 ==> !IsSpace(r[i]))
      ensures i < |r| - 1 ==> !(IsSpace(r[i]) && IsSpace(r[i + 1]))
    {
      assert SpacedAt(r, i);
    }
  }

  /** A title that fits keeps its words: formatting only changes whitespace. */
  lemma FormatTitleKeepsFields(title: string, maxLength: int)
    requires |Normalize(title)| <= maxLength
    ensures Fields(FormatTitle(title, maxLength)) == Fields(title)
  {
  }

  /** Formatting its own output changes nothing. */
  lemma FormatTitleIdempotent(title: string, maxLength: int)
    requires 1 <= maxLength
    ensures FormatTitle(FormatTitle(title, maxLength), maxLength) == FormatTitle(title, maxLength)
  {
    NormalizeFixesSingleSpaced(FormatTitle(title, maxLength));
  }

  /** A blank title formats to the empty string, whatever the maximum length. */
  lemma BlankTitleFormatsEmpty(title: string, maxLength: int)
    requires Fields(title) == [] && maxLength >= 0
    ensures Formattable(title, maxLength) && FormatTitle(title, maxLength) == ""
  {
  }

  lemma PaddingFields(mid: string)
    ensures Fields("  " + mid + " ") == Fields(mid)
  {
    assert "  " + mid + " " == [' '] + ([' '] + (mid + " "));
    FieldsSkipSpace(' ', [' '] + (mid + " "));
    FieldsSkipSpace(' ', mid + " ");
    FieldsAppendSpace(mid, " ");
  }

  lemma NewlineFields(a: string, b: string)
    ensures Fields(a + "\n" + b) == Fields(a + " " + b)
  {
    assert SameShape(a + "\n" + b, a + " " + b);
    FieldsSameShape(a + "\n" + b, a + " " + b);
  }

  lemma TwoWordFields(a: string, b: string)
    requires IsWord(a) && IsWord(b)
    ensures Fields("  " + a + "\n" + b + " ") == Fields(a + " " + b) == [a, b]
  {
    var mid := a + "\n" + b;
    assert "  " + a + "\n" + b + " " == "  " + mid + " ";
    PaddingFields(mid);
    assert Fields("  " + mid + " ") == Fields(mid);
    NewlineFields(a, b);
    assert Fields(mid) == Fields(a + " " + b);
    assert Join([a, b], " ") == a + " " + b;
    FieldsOfJoin([a, b]);
    assert Fields(a + " " + b) == [a, b];
  }

  /**
   * Two words separated by a newline and surrounded by spaces, as in
   * "  Example\nSite ", format as the two words with one space between them.
   */
  lemma TwoWordTitle(a: string, b: string, maxLength: int)
    requires IsWord(a) && IsWord(b) && |a| + 1 + |b| <= maxLength
    ensures FormatTitle("  " + a + "\n" + b + " ", maxLength) == a + " " + b
  {
    TwoWordFields(a, b);
    assert Join([a, b], " ") == a + " " + b;
    JoinSingleSpaced([a, b]);
    NormalizeUnique("  " + a + "\n" + b + " ", a + " " + b);
  }
}

=== FILE: parse_url.dfy ===
/**
 * The host policy `parseURL` adds on top of `url.ParseRequestURI`: a host
 * must be present and must not be `localhost`.
 */
module UrlPolicy {
  import opened Wrappers
  import opened Errors

  /**
   * What the model needs of a parsed `*url.URL`: its `Host` field (which
   * includes any port) and its serialisation by `String()`.
   */
  datatype Url = Url(host: string, text: string)

  /** The ASCII part of `unicode.ToLower`. */
  function LowerChar(c: char): char
  {
    if 'A' <= c <= 'Z' then (c as int + 32) as char else c
  }

  /** `strings.ToLower`, restricted to ASCII letters. */
  function ToLower(s: string): (r: string)
    ensures |r| == |s|
    ensures forall i :: 0 <= i < |s| ==> r[i] == LowerChar(s[i])
  {
    if s == [] then [] else [LowerChar(s[0])] + ToLower(s[1..])
  }

  predicate IsLocalhost(host: string)
  {
    ToLower(host) == "localhost"
  }

  /**
   * `parseURL` after `url.ParseRequestURI` has produced `parsed` (None when
   * it failed): reject a missing host, then a `localhost` host, and
   * otherwise return the parsed URL unchanged.
   */
  function ParseURL(parsed: Option<Url>): (r: Result<Url, Error>)
    ensures r == Failure(InvalidURL) <==> parsed.None?
    ensures r == Failure(InvalidHost) <==> parsed.Some? && parsed.value.host == ""
    ensures r == Failure(Localhost) <==> parsed.Some? && IsLocalhost(parsed.value.host)
    ensures r.Success? <==> parsed.Some? && parsed.value.host != "" && !IsLocalhost(parsed.value.host)
    ensures r.Success? ==> r.value == parsed.value
  {
    match parsed
    case None => Failure(InvalidURL)
    case Some(u) =>
      if u.host == "" then Failure(InvalidHost)
      else if IsLocalhost(u.host) then Failure(Localhost)
      else Success(u)
  }

  /**
   * The localhost check is a case-insensitive comparison: a host is
   * rejected exactly when each of its nine characters is the matching
   * letter of `localhost` in either case.
   */
  lemma IsLocalhostIgnoresCase(host: string)
    ensures IsLocalhost(host) <==>
      |host| == 9 && forall i :: 0 <= i < 9 ==> host[i] == "localhost"[i] || host[i] == "LOCALHOST"[i]
  {
  }

  /** A host with a port is not `localhost`: `localhost:8080` passes the check. */
  lemma LocalhostWithPortAccepted(text: string)
    ensures ParseURL(Some(Url("localhost:8080", text))) == Success(Url("localhost:8080", text))
  {
  }
}

=== FILE: strings.dfy ===
/**
 * The parts of Go's `unicode` and `strings` packages that the title
 * formatter relies on, over strings of code points.
 */
module Strings {

  /** Go's `unicode.IsSpace`: the Unicode White_Space property. */
  predicate IsSpace(c: char)
  {
    || c == '\t' || c == '\n' || c == '\U{000B}' || c == '\U{000C}' || c == '\r' || c == ' '
    || c == '\U{0085}' || c == '\U{00A0}' || c == '\U{1680}'
    || ('\U{2000}' <= c <= '\U{200A}')
    || c == '\U{2028}' || c == '\U{2029}' || c == '\U{202F}' || c == '\U{205F}' || c == '\U{3000}'
  }

  /** Every character of `s` is whitespace. */
  predicate AllSpace(s: string)
  {
    forall i :: 0 <= i < |s| ==> IsSpace(s[i])
  }

  /** A field as `strings.Fields` produces it: non-empty, without whitespace. */
  predicate IsWord(w: string)
  {
    |w| > 0 && forall i :: 0 <= i < |w| ==> !IsSpace(w[i])
  }

  /** `s` with its leading whitespace removed: Go's `strings.TrimLeftFunc(s, unicode.IsSpace)`. */
  function TrimLeftSpace(s: string): (r: string)
    ensures |r| <= |s|
    ensures r == [] || !IsSpace(r[0])
  {
    if s != [] && IsSpace(s[0]) then TrimLeftSpace(s[1..]) else s
  }

  /** `s` with its trailing whitespace removed: Go's `strings.TrimRightFunc(s, unicode.IsSpace)`. */
  function TrimRightSpace(s: string): (r: string)
    ensures |r| <= |s| && r == s[..|r|]
    ensures AllSpace(s[|r|..])
    ensures r == [] || !IsSpace(r[|r| - 1])
  {
    if s != [] && IsSpace(s[|s| - 1]) then TrimRightSpace(s[..|s| - 1]) else s
  }

  /** Go's `strings.TrimSpace`. */
  function TrimSpace(s: string): (r: string)
    ensures |r| <= |s|
    ensures r == [] || (!IsSpace(r[0]) && !IsSpace(r[|r| - 1]))
  {
    TrimRightSpace(TrimLeftSpace(s))
  }

  /** Go's `strings.ReplaceAll` for a one-character pattern and replacement. */
  function ReplaceChar(s: string, from: char, to: char): (r: string)
    ensures |r| == |s|
    ensures forall i :: 0 <= i < |s| ==> r[i] == (if s[i] == from then to else s[i])
  {
    if s == [] then [] else [if s[0] == from then to else s[0]] + ReplaceChar(s[1..], from, to)
  }

  /** The longest prefix of `s` without whitespace. */
  function Word(s: string): (w: string)
    ensures |w| <= |s| && w == s[..|w|]
    ensures forall i :: 0 <= i < |w| ==> !IsSpace(w[i])
    ensures |w| < |s| ==> IsSpace(s[|w|])
  {
    if s == [] || IsSpace(s[0]) then [] else [s[0]] + Word(s[1..])
  }

  /** Go's `strings.Fields`: the maximal runs of non-whitespace characters, in order. */
  function Fields(s: string): (ws: seq<string>)
    ensures forall i :: 0 <= i < |ws| ==> IsWord(ws[i])
    decreases |s|
  {
    var t := TrimLeftSpace(s);
    if t == [] then [] else
      var w := Word(t);
      [w] + Fields(t[|w|..])
  }

  /** Go's `strings.Join`. */
  function Join(ws: seq<string>, sep: string): string
  {
    if |ws| == 0 then []
    else if |ws| == 1 then ws[0]
    else ws[0] + sep + Join(ws[1..], sep)
  }
}

/** What `strings.Fields` and `strings.Join` promise about each other. */
module FieldsJoin {
  import opened Strings

  /**
   * `s` is in the form `Join(ws, " ")` produces from fields: no leading or
   * trailing whitespace, and every whitespace character is a plain space
   * between two non-whitespace characters.
   */
  predicate SingleSpaced(s: string)
  {
    forall i :: 0 <= i < |s| ==> SpacedAt(s, i)
  }

  /** Position `i` of `s` is either non-whitespace or a lone space between two words. */
  predicate SpacedAt(s: string, i: nat)
    requires i < |s|
  {
    IsSpace(s[i]) ==> s[i] == ' ' && 0 < i < |s| - 1 && !IsSpace(s[i - 1]) && !IsSpace(s[i + 1])
  }

  /** `a` and `b` have whitespace at the same places and agree everywhere else. */
  predicate SameShape(a: string, b: string)
  {
    && |a| == |b|
    && (forall i :: 0 <= i < |a| ==> (IsSpace(a[i]) <==> IsSpace(b[i])))
    && (forall i :: 0 <= i < |a| && !IsSpace(a[i]) ==> a[i] == b[i])
  }

  predicate AllWords(ws: seq<string>)
  {
    forall i :: 0 <= i < |ws| ==> IsWord(ws[i])
  }

  lemma JoinCons(w: string, ws: seq<string>)
    requires ws != []
    ensures Join([w] + ws, " ") == w + " " + Join(ws, " ")
  {
    assert ([w] + ws)[1..] == ws;
  }

  /** Joining fields gives a non-empty string that starts and ends with non-whitespace. */
  lemma {:induction false} JoinEnds(ws: seq<string>)
    requires AllWords(ws) && ws != []
    ensures var s := Join(ws, " "); |s| > 0 && !IsSpace(s[0]) && !IsSpace(s[|s| - 1])
    decreases |ws|
  {
    if |ws| > 1 {
      JoinEnds(ws[1..]);
    }
  }

  /** Joining fields with single spaces gives a single-spaced string. */
  lemma {:induction false} JoinSingleSpaced(ws: seq<string>)
    requires AllWords(ws)
    ensures SingleSpaced(Join(ws, " "))
    decreases |ws|
  {
    if |ws| > 1 {
      var w, j := ws[0], Join(ws[1..], " ");
      JoinSingleSpaced(ws[1..]);
      JoinEnds(ws[1..]);
      var s := w + " " + j;
      assert s == Join(ws, " ");
      forall i | 0 <= i < |s|
        ensures SpacedAt(s, i)
      {
        if i < |w| {
          assert s[i] == w[i];
        } else if i == |w| {
          assert s[i - 1] == w[|w| - 1];
          assert s[i + 1] == j[0];
        } else {
          var k := i - |w| - 1;
          assert s[i] == j[k] && SpacedAt(j, k);
          if IsSpace(s[i]) {
            assert s[i - 1] == j[k - 1];
            assert s[i + 1] == j[k + 1];
          }
        }
      }
    }
  }

  lemma TrimLeftSpaceIdempotent(s: string)
    ensures TrimLeftSpace(TrimLeftSpace(s)) == TrimLeftSpace(s)
  {
  }

  /** Leading whitespace does not change the fields. */
  lemma FieldsTrimLeftSpace(s: string)
    ensures Fields(TrimLeftSpace(s)) == Fields(s)
  {
    TrimLeftSpaceIdempotent(s);
  }

  /** A word with nothing after it, or a word followed by whitespace, is the longest non-whitespace prefix. */
  lemma {:induction false} WordOfWord(w: string, x: string)
    requires forall i :: 0 <= i < |w| ==> !IsSpace(w[i])
    requires x == [] || IsSpace(x[0])
    ensures Word(w + x) == w
    decreases |w|
  {
    if w != [] {
      assert (w + x)[1..] == w[1..] + x;
      WordOfWord(w[1..], x);
    }
  }

  /** A string that starts with a non-whitespace character begins with its first field. */
  lemma FieldsStart(s: string)
    requires s != [] && !IsSpace(s[0])
    ensures Fields(s) == [Word(s)] + Fields(s[|Word(s)|..])
  {
    assert TrimLeftSpace(s) == s;
  }

  /** One leading whitespace character does not change the fields. */
  lemma FieldsSkipSpace(c: char, s: string)
    requires IsSpace(c)
    ensures Fields([c] + s) == Fields(s)
  {
    assert ([c] + s)[1..] == s;
    assert TrimLeftSpace([c] + s) == TrimLeftSpace(s);
    FieldsTrimLeftSpace(s);
  }

  /** A field, one space and a string that starts with a field split into that field and the rest. */
  lemma FieldsOfWordSpace(w: string, j: string)
    requires IsWord(w) && j != [] && !IsSpace(j[0])
    ensures Fields(w + " " + j) == [w] + Fields(j)
  {
    var s := w + ([' '] + j);
    assert s == w + " " + j;
    WordOfWord(w, [' '] + j);
    FieldsStart(s);
    DropAppend(w, [' '] + j, |w|);
    assert w[|w|..] == [];
    FieldsSkipSpace(' ', j);
  }

  /** `Fields` is a left inverse of joining with single spaces. */
  lemma {:induction false} FieldsOfJoin(ws: seq<string>)
    requires AllWords(ws)
    ensures Fields(Join(ws, " ")) == ws
    decreases |ws|
  {
    if |ws| == 1 {
      WordOfWord(ws[0], []);
      assert ws[0] + [] == ws[0];
      FieldsStart(ws[0]);
    } else if |ws| > 1 {
      var w, j := ws[0], Join(ws[1..], " ");
      assert Join(ws, " ") == w + " " + j;
      JoinEnds(ws[1..]);
      FieldsOfWordSpace(w, j);
      FieldsOfJoin(ws[1..]);
    }
  }

  /** The suffix of a single-spaced string after one of its spaces is single-spaced. */
  lemma SingleSpacedAfter(s: string, k: nat)
    requires SingleSpaced(s) && k < |s| && s[k] == ' '
    ensures SingleSpaced(s[k + 1..]) && s[k + 1..] != [] && !IsSpace(s[k + 1])
  {
    var s' := s[k + 1..];
    assert SpacedAt(s, k);
    forall i | 0 <= i < |s'|
      ensures SpacedAt(s', i)
    {
      assert SpacedAt(s, k + 1 + i);
    }
  }

  lemma JoinAround(s: string, w: string, f: seq<string>)
    requires |w| < |s| && w == s[..|w|] && s[|w|] == ' '
    requires f != [] && Join(f, " ") == s[|w| + 1..]
    ensures Join([w] + f, " ") == s
  {
    JoinCons(w, f);
    assert s == s[..|w|] + [s[|w|]] + s[|w| + 1..];
  }

  /** In a single-spaced string, the first field is followed by one space and the remaining fields. */
  lemma FieldsAfterWord(s: string)
    requires SingleSpaced(s) && s != [] && |Word(s)| < |s|
    ensures var k := |Word(s)| + 1;
      && k < |s| && SingleSpaced(s[k..]) && s[k - 1] == ' '
      && Fields(s) == [Word(s)] + Fields(s[k..])
      && Fields(s[k..]) != []
  {
    var w := Word(s);
    var s' := s[|w| + 1..];
    assert SpacedAt(s, 0);
    FieldsStart(s);
    assert SpacedAt(s, |w|);
    SingleSpacedAfter(s, |w|);
    assert s[|w|..] == [' '] + s';
    FieldsSkipSpace(' ', s');
    FieldsStart(s');
  }

  /** A single-spaced string is the join of its own fields. */
  lemma {:induction false} JoinOfFields(s: string)
    requires SingleSpaced(s)
    ensures Join(Fields(s), " ") == s
    decreases |s|
  {
    if s != [] {
      var w := Word(s);
      if |w| == |s| {
        assert SpacedAt(s, 0);
        FieldsStart(s);
        assert s[|w|..] == [];
        assert Fields([]) == [];
      } else {
        FieldsAfterWord(s);
        var s' := s[|w| + 1..];
        JoinOfFields(s');
        JoinAround(s, w, Fields(s'));
      }
    }
  }

  lemma {:induction false} TrimLeftSpaceAppend(t: string, x: string)
    ensures TrimLeftSpace(t) != [] ==> TrimLeftSpace(t + x) == TrimLeftSpace(t) + x
    ensures TrimLeftSpace(t) == [] ==> TrimLeftSpace(t + x) == TrimLeftSpace(x)
    decreases |t|
  {
    if t == [] {
      assert t + x == x;
    } else if IsSpace(t[0]) {
      DropAppend(t, x, 1);
      TrimLeftSpaceAppend(t[1..], x);
    }
  }

  lemma {:induction false} TrimLeftSpaceOfAllSpace(sp: string)
    requires AllSpace(sp)
    ensures TrimLeftSpace(sp) == []
    decreases |sp|
  {
    if sp != [] {
      TrimLeftSpaceOfAllSpace(sp[1..]);
    }
  }

  lemma {:induction false} WordAppendSpace(u: string, sp: string)
    requires AllSpace(sp)
    ensures Word(u + sp) == Word(u)
    decreases |u|
  {
    if u != [] {
      assert (u + sp)[1..] == u[1..] + sp;
      WordAppendSpace(u[1..], sp);
    }
  }

  lemma HeadTail(s: string)
    requires s != []
    ensures s == [s[0]] + s[1..]
  {
  }

  lemma DropAppend(u: string, x: string, k: nat)
    requires k <= |u|
    ensures (u + x)[k..] == u[k..] + x
  {
  }

  lemma FieldsStartAppendSpace(u: string, sp: string)
    requires u != [] && !IsSpace(u[0]) && AllSpace(sp)
    ensures var w := Word(u);
      && Fields(u) == [w] + Fields(u[|w|..])
      && Fields(u + sp) == [w] + Fields(u[|w|..] + sp)
  {
    var w := Word(u);
    WordAppendSpace(u, sp);
    FieldsStart(u);
    FieldsStart(u + sp);
    DropAppend(u, sp, |w|);
  }

  /** Trailing whitespace does not change the fields. */
  lemma {:induction false} FieldsAppendSpace(t: string, sp: string)
    requires AllSpace(sp)
    ensures Fields(t + sp) == Fields(t)
    decreases |t|
  {
    var u := TrimLeftSpace(t);
    TrimLeftSpaceAppend(t, sp);
    FieldsTrimLeftSpace(t);
    FieldsTrimLeftSpace(t + sp);
    if u == [] {
      FieldsTrimLeftSpace(sp);
      TrimLeftSpaceOfAllSpace(sp);
    } else {
      FieldsStartAppendSpace(u, sp);
      FieldsAppendSpace(u[|Word(u)|..], sp);
    }
  }

  lemma FieldsTrimRightSpace(s: string)
    ensures Fields(TrimRightSpace(s)) == Fields(s)
  {
    var r := TrimRightSpace(s);
    assert s == r + s[|r|..];
    FieldsAppendSpace(r, s[|r|..]);
  }

  /** Whitespace at either end does not change the fields. */
  lemma FieldsTrimSpace(s: string)
    ensures Fields(TrimSpace(s)) == Fields(s)
  {
    FieldsTrimRightSpace(TrimLeftSpace(s));
    FieldsTrimLeftSpace(s);
  }

  lemma {:induction false} TrimLeftSpaceSameShape(a: string, b: string)
    requires SameShape(a, b)
    ensures SameShape(TrimLeftSpace(a), TrimLeftSpace(b))
    decreases |a|
  {
    if a != [] && IsSpace(a[0]) {
      TrimLeftSpaceSameShape(a[1..], b[1..]);
    }
  }

  lemma {:induction false} WordSameShape(a: string, b: string)
    requires SameShape(a, b)
    ensures Word(a) == Word(b)
    decreases |a|
  {
    if a != [] && !IsSpace(a[0]) {
      WordSameShape(a[1..], b[1..]);
    }
  }

  /** Replacing newlines by spaces exchanges one whitespace character for another. */
  lemma ReplaceNewlineSameShape(s: string)
    ensures SameShape(s, ReplaceChar(s, '\n', ' '))
  {
  }

  /** Which whitespace character separates two fields does not matter. */
  lemma {:induction false} FieldsSameShape(a: string, b: string)
    requires SameShape(a, b)
    ensures Fields(a) == Fields(b)
    decreases |a|
  {
    var ta, tb := TrimLeftSpace(a), TrimLeftSpace(b);
    TrimLeftSpaceSameShape(a, b);
    if ta != [] {
      var w := Word(ta);
      WordSameShape(ta, tb);
      FieldsStart(ta);
      FieldsStart(tb);
      assert SameShape(ta[|w|..], tb[|w|..]);
      FieldsSameShape(ta[|w|..], tb[|w|..]);
    }
  }

  /** Rejoining the fields with single spaces never makes a string longer. */
  lemma {:induction false} JoinFieldsNotLonger(s: string)
    ensures |Join(Fields(s), " ")| <= |s|
    decreases |s|
  {
    var u := TrimLeftSpace(s);
    FieldsTrimLeftSpace(s);
    if u != [] {
      var w := Word(u);
      var rest := u[|w|..];
      FieldsStart(u);
      if Fields(rest) == [] {
        assert Fields(s) == [w];
      } else {
        assert rest != [];
        HeadTail(rest);
        FieldsSkipSpace(rest[0], rest[1..]);
        JoinFieldsNotLonger(rest[1..]);
        JoinCons(w, Fields(rest));
      }
    }
  }
}

=== FILE: wrappers.dfy ===
/** Failure-carrying wrappers shared by the whole model. */
module Wrappers {

  /** An optional value: the stand-in for a nil pointer or an absent result. */
  datatype Option<+T> = None | Some(value: T)

  /** A value or an error, as a Go function's `(T, error)` pair where exactly one is meaningful. */
  datatype Result<+T, +E> = Success(value: T) | Failure(error: E)
}

/** The error values a description can end in. */
module Errors {

  datatype Error =
    /** `url.ParseRequestURI` rejected the input string. */
    | InvalidURL
    /** `ErrInvalidHost`: the parsed URL has no host. */
    | InvalidHost
    /** `ErrLocalhost`: the host is `localhost`, ignoring case. */
    | Localhost
    /** Building the request or the HTTP round trip failed. */
    | Transport
    /** The response status was not 200 OK. */
    | UnexpectedStatus(status: int)
    /** `ErrNotHTML`: the Content-Type header does not start with `text/html`. */
    | NotHTML(contentType: string)
    /** `ErrResponseTooLarge`: the declared length exceeds the configured maximum. */
    | ResponseTooLarge(contentLength: int)
    /** The markup parser failed while reading the body. */
    | ParseFailed
}
